=== FILE: README.md ===
# Music Assistant client core, modelled in Dafny

This project models the deterministic core of the Music Assistant websocket
client (`MusicAssistantClient` and its players cache). The client sends
commands to a Music Assistant server and matches the correlated results to
the callers waiting for them. It fans push events out to subscribers, and it
mirrors the server's providers and players locally. The client's behaviour
is a set of pure state transitions over one immutable `ClientState` record;
the compaction helpers are pure functions on JSON values. The record holds:

- `pending`: the `_result_futures` table, from message id to the state of
  the future (`Pending`, `Resolved`, `Rejected`, `Cancelled`).
- `subscribers`: the ordered listener list.
- `providers` and `players`: insertion-ordered association lists with
  Python-dict semantics (`OrderedMap`), because lookups return the first
  match in enumeration order.
- `connected`, `loopSet`, `stopCalled` and `serverInfo`: the connection
  flags.
- `outbox`: the commands handed to the transport.
- `scheduled`: the callback deliveries handed to the event loop.

Modules:

- `OrderedMap`: dict get, assignment and `pop`.
- `Json`: JSON values as the media models serialise them.
- `Helpers`: media-item compaction.
- `Messages`: the server library's message and model types, already parsed.
- `Router`: `subscribe`, the remover it returns, and the dispatch filter.
- `Providers`: `get_provider` and the `PROVIDERS_UPDATED` snapshot.
- `Players`: the players cache.
- `Client`: connect, send, result routing, event handling and disconnect.
- `Session`: runs of interleaved actions, and what they guarantee about
  each pending command. An action is a connect, a send of either kind, a
  command's `finally`, an incoming message, the two halves of `disconnect`
  (stop and cancel, then close the transport), a callback delivery,
  `subscribe`, or a call of the remover it returned.

`send_command` suspends at `await future`, so it is modelled as two
transitions. `Client.SendCommand` covers the guards, the registration and
the send. `Client.CompleteCommand` is the `finally` that pops the entry and
turns the slot into the call's result. Anything can happen in between.

## Source behaviour the model follows

- `disconnect` leaves the table's entries in place. It only cancels the
  futures; each `send_command`'s `finally` pops its own entry.
- `future.cancel()` does nothing to a future that is already done. So
  `disconnect` turns only Pending slots into Cancelled.
- `send_command_no_wait` is gated on `server_info` being set, not on the
  connection.
- A failed schema gate in `connect` leaves `server_info` unchanged. It is
  unset only if the client never connected successfully, and `disconnect`
  never clears it.
- When `ServerInfoMessage.from_dict` rejects the handshake payload, the
  transport stays connected and `server_info` keeps its previous value. That
  value is unset for a client that never connected successfully. Every later
  `connect` returns early. `send_command` then runs without a schema gate
  only when `server_info` was unset (`Session.UnparseableHandshakeScenario`).
  After an earlier successful connection, the old server info still gates it
  (`Session.ReconnectKeepsServerInfo`).
- `disconnect` cancels the pending futures before it awaits the transport's
  own `disconnect`. A `send_command` that passes its guards during that await
  registers a future that nothing cancels, and it stays Pending after the
  connection closes (`Session.SendDuringDisconnectIsNeverCancelled`).
- Both plain and coroutine callbacks are scheduled on the loop. Neither is
  called directly from `_handle_event`.
- A second result for an already-settled future makes asyncio raise
  `InvalidStateError`, and so does a result for a future that `disconnect`
  cancelled before the `finally` popped it. The same holds for a future
  cancelled because the awaiting task was cancelled, for example by a
  caller's timeout, when the result arrives before the `finally` runs. The
  source does not guard against this. The model has an error outcome
  (`FutureAlreadyDone`) that leaves the state unchanged, and settling
  succeeds only on a Pending slot.
- In the source, such a raise ends the client's session. The read loop in
  `start_listening` (client.py:322-332) catches only `ConnectionClosed`. So an
  `InvalidStateError`, an `AssertionError` or a `from_dict` error escaping
  `_handle_incoming_message` leaves the loop, and its `finally` runs
  `disconnect()`. In the model, the raise is the message's outcome. A run
  continues only when its trace contains the teardown (`Stop`, then
  `Close`).
- The task cancellation itself is not a separate step. `CompleteCommand`
  meets the still-Pending slot and raises CancelledError, so the window
  between the cancellation and the `finally` is atomic in the model.

## Model

| member | source | states |
|---|---|---|
| OrderedMap.Get | music_assistant_client/players.py:48-50 | `dict.get`: a value exactly when the key is present, and that value is stored under the key |
| OrderedMap.Put | music_assistant_client/players.py:263 | dict assignment: the key then maps to the new value, every other key's lookup is unchanged, an existing key keeps its position, a new key is appended, and keys stay unique |
| OrderedMap.Remove | music_assistant_client/players.py:268 | `pop(key, None)`: the key is absent afterwards, the remaining keys keep their order, every other key's lookup is unchanged, an absent key leaves the map identical, and keys stay unique |
| Players.Get | music_assistant_client/players.py:48-50 | `Players.get`: None iff the id is not cached; otherwise the unique player stored under the id |
| Players.GetItem | music_assistant_client/players.py:52-54 | `__getitem__`: KeyError iff the id is absent; otherwise a player stored under it |
| Players.CheckFavoriteCandidate | music_assistant_client/players.py:208-211 | PlayerUnavailableError iff the player is not cached; PlayerCommandFailed iff it is cached without a truthy `active_source`; it only reads the cache, so both fail before any command |
| Players.HandleEvent | music_assistant_client/players.py:258-268 | added/updated: the object id maps to the payload player and no other key changes; removed: the id is gone and no other key changes, an unknown id being a no-op; any other event type leaves the cache unchanged; a missing object id fails the assert; an added/updated event with an object id and a player payload always succeeds |
| Players.PlayersSubscriptionMatches | music_assistant_client/players.py:28-35 | the handler registered at construction matches an event iff it is PLAYER_ADDED, PLAYER_REMOVED or PLAYER_UPDATED |
| Players.FetchState | music_assistant_client/players.py:253-256 | every lookup afterwards gives the last fetched player with that id, or the previously cached one when none was fetched; no cached id is removed |
| Providers.FirstByDomain | music_assistant_client/client.py:123-129 | the result is the first provider in enumeration order with the domain that is available or allowed by `return_unavailable`, or None when no provider qualifies |
| Providers.GetProvider | music_assistant_client/client.py:108-129 | an exact instance-id hit is returned when available or `return_unavailable`; an unavailable non-streaming hit gives None with no scan; an unavailable streaming hit scans its own domain; a miss scans the argument as a domain; an unavailable provider is never returned unless allowed |
| Providers.FromPayload | music_assistant_client/client.py:399 | the rebuilt provider map has unique keys, enumerates the payload's instance ids in order of first occurrence, and maps each to the last payload instance with that id |
| Providers.FromDistinctPayload | music_assistant_client/client.py:399 | a payload with distinct instance ids is rebuilt as exactly itself, each instance under its id, in payload order |
| Providers.SnapshotFallbackFollowsPayloadOrder | music_assistant_client/client.py:119-129 | after a snapshot with distinct ids, looking up a domain that is not an instance id returns the first eligible instance in payload order, or None when none is eligible |
| Router.Subscribe | music_assistant_client/client.py:166-184 | the listener is appended at the end, and it matches an event iff the filters as passed (a single value or a tuple) admit its type and object id |
| Router.Unsubscribe | music_assistant_client/client.py:186-187 | `list.remove`: ValueError iff the listener is absent; otherwise its first occurrence is removed and the rest keep their order |
| Router.SubscribeThenUnsubscribe | music_assistant_client/client.py:166-189 | removing a listener right after adding it gives back the same multiset of listeners, and exactly the old list when it was not registered already |
| Router.Dispatch | music_assistant_client/client.py:401-415 | a delivery is scheduled for a subscriber iff its event filter is None or contains the event type and its id filter is None or contains the object id |
| Router.DispatchAppend | music_assistant_client/client.py:401 | deliveries follow registration order: dispatching over `a + b` is dispatching over `a` followed by dispatching over `b` |
| Router.UnfilteredReceivesAll | music_assistant_client/client.py:405-410 | a subscriber registered without filters receives every event |
| Client.Init | music_assistant_client/client.py:56-67 | a new client is disconnected, has no server info, nothing pending, queued or sent, and empty provider and player caches; its only listener, the players cache's, receives exactly the player events |
| Client.Connect | music_assistant_client/client.py:191-216 | when already connected, only the loop is captured; a transport failure leaves the client closed; a payload `from_dict` rejects raises with the transport left connected and `server_info` as it was; a minimum supported schema above the client's closes the connection, raises InvalidServerVersion and leaves `server_info` as it was; otherwise the connection is open and `server_info` is the received info; the table, subscribers, caches and outbox never change |
| Client.SendCommand | music_assistant_client/client.py:225-259 | InvalidState when not connected, and InvalidServerVersion when the required schema exceeds the server's, both with the state untouched; otherwise the id is added as Pending, no other entry changes, and exactly this command is appended to the outbox; when the transport raises, ConnectionClosed with the table as it was |
| Client.CompleteCommand | music_assistant_client/client.py:256-259 | the `finally` pops exactly this id and nothing else; a resolved slot is returned, a rejected one raises its error with the details, a cancelled one raises CancelledError; popping a missing id is a KeyError |
| Client.SendCommandNoWait | music_assistant_client/client.py:261-284 | InvalidState without server info, then the same schema gate; a failing `send_message` raises ConnectionClosed with nothing changed; it succeeds exactly when all three pass; the table is never touched and on success only the command is appended to the outbox |
| Client.StopAndCancel | music_assistant_client/client.py:337-340 | the part of `disconnect` before its await: the stop flag is set; the table keeps its ids; every Pending slot becomes Cancelled and settled slots are untouched; the connection and everything else are unchanged |
| Client.Disconnect | music_assistant_client/client.py:334-343 | `disconnect` with nothing run at its await: the stop flag is set and the connection closed; the table keeps its ids; every Pending slot becomes Cancelled and settled slots are untouched |
| Client.Settle | music_assistant_client/client.py:358-375 | `set_result`/`set_exception` on the entry's future: a missing entry is ignored; a done future raises InvalidStateError with nothing changed; a pending one takes the new outcome and no other entry changes |
| Client.SettleIsOneShot | music_assistant_client/client.py:358-375 | a future settles once: a second settlement raises and the first outcome stays |
| Client.HandleIncoming | music_assistant_client/client.py:345-388 | the table's ids never change; a result for an unknown id changes nothing; a success resolves only the matching Pending slot with its result; an error rejects only that slot with `ERROR_MAP[code]` and the details unchanged; other entries are untouched |
| Client.HandleEvent | music_assistant_client/client.py:390-415 | with the stop flag set nothing happens; otherwise deliveries for the matching subscribers are appended in registration order; with the loop captured, every event except a PROVIDERS_UPDATED without a provider list is handled without error, and a PROVIDERS_UPDATED without a provider list raises the `from_dict` error with nothing changed; PROVIDERS_UPDATED replaces the provider map with exactly the payload's instances, in order of first occurrence, each id holding its last instance; nothing else changes |
| Client.RunNextDelivery | music_assistant_client/client.py:412-415 | the oldest scheduled callback runs; only the players handler can change the players cache, and only by its own event handling |
| Client.SendCommandAsWritten | music_assistant_client/client.py:253-255 | as written, a transport failure raises without sending anything and leaves the entry Pending; whenever a guard fails or the transport succeeds, the result is exactly the corrected SendCommand's |
| Client.SendFailureLeaksEntry | music_assistant_client/client.py:253-259 | as written, a failed send leaves its Pending entry in the table; the corrected model leaves the state as it was |
| Helpers.CompactMediaItem | music_assistant_client/helpers.py:11-30 | no stripped key remains; the keys are the input's minus the six keys, in the input's order; each remaining entry is an input entry with its value compacted |
| Helpers.NestedDictCompacted | music_assistant_client/helpers.py:22-24 | a dict-valued entry is itself compacted recursively |
| Helpers.ListEntryCompacted | music_assistant_client/helpers.py:25-29 | a list value keeps its length; its dict elements are compacted, and its other elements, nested lists included, are unchanged |
| Helpers.CompactMediaItemIdempotent | music_assistant_client/helpers.py:11-30 | compacting an already compacted dict returns it unchanged |
| Helpers.CompactValueIdempotent | music_assistant_client/helpers.py:22-29 | compacting a value a second time changes nothing, at every nesting depth |
| Helpers.CompactSearchResults | music_assistant_client/helpers.py:33-43 | same media-type keys in the same order, same list lengths, each dict item compacted and each non-dict item untouched |
| Helpers.CompactSearchResultsIdempotent | music_assistant_client/helpers.py:33-43 | compacting search results twice is the same as compacting them once |
| Session.SlotFollowsFirstSettlement | music_assistant_client/client.py:253-259 | across any interleaving of other commands, results, events, deliveries and teardown, with `send_command` as written or corrected, a command's entry stays in the table until its own `finally`, and its slot is the outcome of the first result carrying its id or of the first teardown |
| Session.CompleteReturnsMatchingResult | music_assistant_client/client.py:256-259 | each `send_command` returns exactly what the first result with its own id says, or raises CancelledError after a teardown, and its entry is then gone |
| Session.RemovedExactlyOnce | music_assistant_client/client.py:259 | an entry is popped once; a second pop of the same id is a KeyError that changes nothing |
| Session.GuardsComeFirst | music_assistant_client/client.py:233-254 | when the transport accepts the message, a command either registers its id and waits, or fails a guard with nothing registered or sent |
| Session.DisconnectSettlesEverything | music_assistant_client/client.py:337-340 | after disconnect no slot is Pending, a waiting command ends with CancelledError, and later events are dropped |
| Session.UnparseableHandshakeScenario | music_assistant_client/client.py:194-202 | for a new client whose handshake payload `from_dict` rejects, the client is connected without server info, a later `connect` returns early, `send_command` skips the schema gate and `send_command_no_wait` raises InvalidState |
| Session.IncompatibleServerScenario | music_assistant_client/client.py:205-216 | a fresh client facing a too-new server fails to connect, stays closed without server info, and then refuses both kinds of command |
| Session.OutOfOrderResults | music_assistant_client/client.py:248-259 | two commands sent back to back each return their own result even when the server answers in reverse order |
| Session.PlayerHandlerSeesOnlyPlayerEvents | music_assistant_client/players.py:28-35 | before `disconnect`, with the loop captured and the handler registered, whatever else is registered or queued: every event except a malformed PROVIDERS_UPDATED is handled, and it queues a delivery to the players handler, after everything queued before, iff it is a player event; on a non-player event the handler leaves the cache unchanged; a valid added/updated event stores its player and a removed one drops its id |
| Session.ReconnectKeepsServerInfo | music_assistant_client/client.py:194-216 | after a successful connect and a disconnect, a reconnect whose handshake `from_dict` rejects raises with the transport connected and the old server info kept, and that info still gates `send_command` |
| Session.SendDuringDisconnectIsNeverCancelled | music_assistant_client/client.py:233-255 | a command sent while `disconnect` awaits the transport is still Pending after the connection closes and the stop flag is set, while no other entry is still Pending |
| Session.RunKeepsCaches | music_assistant_client/client.py:390-415 | no interleaving of calls, results, events and deliveries ever puts a key twice into the providers map or the players cache |
| Session.FreshRunPlayersAreDict | music_assistant_client/players.py:48-50 | in any run from a new client, `players.get` returns exactly the player stored under the id |

## Findings

| source | as written | input that shows it | evidently intended | confidence | as-written member | corrected member |
|---|---|---|---|---|---|---|
| music_assistant_client/client.py:253-259 | the future is stored in `_result_futures` before the `try`, so when `connection.send_message` raises, the `finally` that pops it never runs and the entry stays forever | a connected client, a fresh id, and a transport whose `send_message` raises ConnectionClosed (lemma Client.SendFailureLeaksEntry) | the entry is removed on every exit path of `send_command` | not executed; likely unintended but harmless beyond the leaked entry | Client.SendCommandAsWritten | Client.SendCommand |

## Left out

- Client.Connect: the awaited transport `connect` (client.py:200) and the
  awaited `disconnect` after a failed schema gate (client.py:207) are each
  one atomic step. Nothing can run at those awaits in this model.
- Client.SendCommand: the awaited `send_message` (client.py:255) is part of
  the same atomic step as the registration. Only the await on the future
  between `SendCommand` and `CompleteCommand` is open to interleaving.
- Helpers.CompactMediaItem: the source pops keys from the caller's dict,
  reassigns its values and returns that same object, and
  `searchresults_as_compact_dict` relies on this mutation of the items in
  the search results. The model returns a new value and never changes its
  argument, so the caller's aliasing of the compacted dict is not modelled.
- Websocket I/O. The transport is a `connected` flag plus an outbox. Its
  outcomes are parameters: the `handshake` argument of `Connect`, and
  `transportFails` for the sends. `disconnect`'s own transport call is
  assumed not to raise.
- asyncio scheduling. Callback delivery is a queue (`scheduled`), and the
  plain-versus-coroutine distinction is not modelled. Cancelling the awaiting
  task shows up as `CompleteCommand` meeting a Pending slot.
  `fetch_state_task` cancellation is left out.
- `uuid.uuid4()`. The message id is a parameter, and its freshness is a
  hypothesis of the lemmas that need it.
- `parse_message`, `from_dict`, `ERROR_MAP` and `create_sort_name` belong to
  the server's models library. Messages and event payloads arrive already
  classified. An event payload `from_dict` would reject is the `ParseFailed`
  error, and a rejected handshake payload is the `Unparseable` handshake. `ERROR_MAP` is the `errorMap` parameter, and the KeyError it raises
  for an unknown code is not modelled.
- `API_SCHEMA_VERSION` lives in `constants.py`, which is not part of this
  model. It is the `apiSchema` parameter of `Connect`.
- `get_image_url` and `get_media_item_image_url` depend on
  `urllib.parse.quote` and on the music controller, neither of which is
  modelled.
- `get_provider_manifest` and the provider manifests are not modelled. The
  same goes for the `providers`, `provider_manifests` and `players` list
  properties and `Players.__iter__`, which only list values.
- `start_listening`, `fetch_initial_state`, `__aenter__`, `__aexit__` and
  `__repr__` are I/O sequencing. The bulk provider fetch in
  `fetch_initial_state` builds its map the same way as
  `Providers.FromPayload`.
- `Players._get_players` is a `send_command` plus `from_dict`.
  `Players.FetchState` takes the fetched players as input.
- The `player_command_*`, group, volume and announcement wrappers are
  pass-throughs to `send_command`.
- `add_currently_playing_to_favorites` after its two guards. The queue
  lookup, the radio-title search and the favourites call need remote search
  and sort-name normalisation.
- Client.RunNextDelivery: callbacks registered by other code run outside
  this state, so their delivery only leaves the queue.
- Client.Init: whatever the `Config`, `PlayerQueues` and `Music`
  controllers register when they are constructed is not modelled. Their code
  is not part of this model; only the players cache's listener is
  registered.
- Logging and `scripts/example.py`.
- JSON numbers are integers. Compaction never inspects them.

=== FILE: client.dfy ===
/**
 The client's state as one immutable record, and the state transitions of
 `MusicAssistantClient`: the schema gate in `connect`, the pending-result table
 of `send_command`, result routing, event dispatch and teardown.

 The transport is a `connected` flag plus an outbox of the messages handed to
 it; the event loop is a queue of scheduled callback deliveries.
 */
module Client {
  import opened Options
  import opened Json
  import opened OrderedMap
  import opened Messages
  import opened Router
  import Providers
  import Players

  /** The state of the future `send_command` awaits. */
  datatype Slot =
    | Pending
    | Resolved(value: Json)
    | Rejected(kind: ErrorKind, details: Json)
    | Cancelled

  datatype ClientState = ClientState(
    connected: bool,                 // the transport's `connected`
    loopSet: bool,                   // `_loop` has been captured
    stopCalled: bool,                // `_stop_called`
    serverInfo: Option<ServerInfo>,  // `_server_info`
    pending: map<string, Slot>,      // `_result_futures`
    subscribers: seq<Subscription>,  // `_subscribers`
    providers: Providers.ProviderMap,
    players: Players.PlayerCache,
    outbox: seq<CommandMessage>,     // messages handed to the transport
    scheduled: seq<Delivery>)        // callbacks handed to the event loop

  /** How a call ends: normally, suspended on its future, with a value, or with an exception. */
  datatype Outcome = Done | Waiting | Returned(value: Json) | Raised(error: ClientError)

  datatype Transition = Transition(next: ClientState, outcome: Outcome)

  /** Both caches are Python dicts: no key occurs twice. */
  predicate CachesAreDicts(s: ClientState)
  {
    UniqueKeys(s.providers) && UniqueKeys(s.players)
  }

  /**
   A newly constructed client: disconnected, with nothing pending, and with
   the players cache's handler registered, so that every player event, and
   nothing else, is handed to it.
   */
  function Init(): (r: ClientState)
    ensures !r.connected && !r.loopSet && !r.stopCalled && r.serverInfo.None?
    ensures r.pending == map[] && r.outbox == [] && r.scheduled == []
    ensures r.providers == [] && r.players == [] && CachesAreDicts(r)
    ensures r.subscribers == [Players.PlayersSubscription]
    ensures forall e :: Dispatch(r.subscribers, e) ==
                        (if IsPlayerEvent(e.event) then [Delivery(Players.PlayersSubscription, e)] else [])
  {
    var subs := [Players.PlayersSubscription];
    assert forall e :: Dispatch(subs, e) ==
                       (if IsPlayerEvent(e.event) then [Delivery(Players.PlayersSubscription, e)] else []) by {
      forall e ensures Dispatch(subs, e) ==
                       (if IsPlayerEvent(e.event) then [Delivery(Players.PlayersSubscription, e)] else []) {
        Players.PlayersSubscriptionMatches(e);
        assert subs[1..] == [];
      }
    }
    ClientState(false, false, false, None, map[], subs, [], [], [], [])
  }

  /** Only the connection flags and the server info may differ. */
  predicate SameSession(a: ClientState, b: ClientState)
  {
    && a.stopCalled == b.stopCalled
    && a.pending == b.pending
    && a.subscribers == b.subscribers
    && a.providers == b.providers
    && a.players == b.players
    && a.outbox == b.outbox
    && a.scheduled == b.scheduled
  }

  /**
   What opening the transport produced: its connect raised, or it connected
   and returned a payload that `ServerInfoMessage.from_dict` rejects, or one
   it accepts.
   */
  datatype Handshake = TransportFailed | Unparseable | Received(info: ServerInfo)

  /**
   `connect`: a no-op apart from capturing the loop when already connected.
   Otherwise the transport connects (or raises), the payload is parsed (a
   parse error leaves the transport connected), and the server info passes
   the schema gate or the connection is closed again with
   InvalidServerVersion.
   */
  function Connect(s: ClientState, apiSchema: int, handshake: Handshake): (r: Transition)
    ensures r.next.loopSet && SameSession(s, r.next)
    ensures s.connected ==> r == Transition(s.(loopSet := true), Done)
    ensures !s.connected && handshake.TransportFailed? ==>
      r.outcome == Raised(ConnectionFailed) && !r.next.connected && r.next.serverInfo == s.serverInfo
    ensures !s.connected && handshake.Unparseable? ==>
      r.outcome == Raised(ParseFailed) && r.next.connected && r.next.serverInfo == s.serverInfo
    ensures !s.connected && handshake.Received? && handshake.info.minSupportedSchemaVersion > apiSchema ==>
      r.outcome == Raised(InvalidServerVersion) && !r.next.connected && r.next.serverInfo == s.serverInfo
    ensures !s.connected && handshake.Received? && handshake.info.minSupportedSchemaVersion <= apiSchema ==>
      r.outcome == Done && r.next.connected && r.next.serverInfo == Some(handshake.info)
  {
    var s1 := s.(loopSet := true);
    if s.connected then Transition(s1, Done)
    else match handshake
      case TransportFailed => Transition(s1, Raised(ConnectionFailed))
      case Unparseable => Transition(s1.(connected := true), Raised(ParseFailed))
      case Received(info) =>
        if info.minSupportedSchemaVersion > apiSchema then
          Transition(s1.(connected := false), Raised(InvalidServerVersion))
        else
          Transition(s1.(connected := true, serverInfo := Some(info)), Done)
  }

  /** The per-command schema gate: a required schema newer than the server's. */
  predicate SchemaTooOld(requireSchema: Option<int>, info: Option<ServerInfo>)
  {
    requireSchema.Some? && info.Some? && requireSchema.value > info.value.schemaVersion
  }

  /**
   `send_command` up to the point where it awaits its future: the guards, the
   registration of a Pending slot under the fresh id `id`, and the hand-off of
   the message to the transport (`transportFails` when that raises). On a
   transport failure the slot is removed again (see SendCommandAsWritten).
   */
  function SendCommand(
    s: ClientState, id: string, command: string, requireSchema: Option<int>,
    args: seq<(string, Json)>, transportFails: bool
  ): (r: Transition)
    ensures !s.connected || !s.loopSet ==> r == Transition(s, Raised(InvalidState))
    ensures s.connected && s.loopSet && SchemaTooOld(requireSchema, s.serverInfo) ==>
      r == Transition(s, Raised(InvalidServerVersion))
    ensures r.outcome == Waiting <==>
      s.connected && s.loopSet && !SchemaTooOld(requireSchema, s.serverInfo) && !transportFails
    ensures r.outcome == Waiting ==>
      && r.next.pending.Keys == s.pending.Keys + {id}
      && r.next.pending[id] == Pending
      && (forall k :: k in s.pending && k != id ==> r.next.pending[k] == s.pending[k])
      && r.next.outbox == s.outbox + [CommandMessage(id, command, args)]
      && r.next == s.(pending := r.next.pending, outbox := r.next.outbox)
    ensures s.connected && s.loopSet && !SchemaTooOld(requireSchema, s.serverInfo) && transportFails ==>
      r.outcome == Raised(ConnectionClosed) && r.next == s.(pending := s.pending - {id})
  {
    if !s.connected || !s.loopSet then Transition(s, Raised(InvalidState))
    else if SchemaTooOld(requireSchema, s.serverInfo) then Transition(s, Raised(InvalidServerVersion))
    else
      var registered := s.pending[id := Pending];
      if transportFails then Transition(s.(pending := registered - {id}), Raised(ConnectionClosed))
      else Transition(s.(pending := registered, outbox := s.outbox + [CommandMessage(id, command, args)]), Waiting)
  }

  /**
   `send_command` exactly as written: the slot is registered before the
   `try`, so when the transport raises, the `finally` that pops it never runs.
   */
  function SendCommandAsWritten(
    s: ClientState, id: string, command: string, requireSchema: Option<int>,
    args: seq<(string, Json)>, transportFails: bool
  ): (r: Transition)
    ensures r.next == s.(pending := r.next.pending, outbox := r.next.outbox)
    ensures transportFails ==> r.next.outbox == s.outbox
    ensures s.connected && s.loopSet && !SchemaTooOld(requireSchema, s.serverInfo) && transportFails ==>
      r.outcome == Raised(ConnectionClosed) && r.next.pending == s.pending[id := Pending]
    ensures !transportFails ==> r == SendCommand(s, id, command, requireSchema, args, false)
    ensures !(s.connected && s.loopSet && !SchemaTooOld(requireSchema, s.serverInfo)) ==>
      r == SendCommand(s, id, command, requireSchema, args, transportFails)
  {
    if !s.connected || !s.loopSet then Transition(s, Raised(InvalidState))
    else if SchemaTooOld(requireSchema, s.serverInfo) then Transition(s, Raised(InvalidServerVersion))
    else
      var registered := s.pending[id := Pending];
      if transportFails then Transition(s.(pending := registered), Raised(ConnectionClosed))
      else Transition(s.(pending := registered, outbox := s.outbox + [CommandMessage(id, command, args)]), Waiting)
  }

  /**
   When the transport raises, the command fails but its slot stays in the
   table with nobody left to pop it; the corrected SendCommand removes it.
   */
  lemma SendFailureLeaksEntry(s: ClientState, id: string, command: string, args: seq<(string, Json)>)
    requires s.connected && s.loopSet && id !in s.pending
    ensures var r := SendCommandAsWritten(s, id, command, None, args, true);
      r.outcome == Raised(ConnectionClosed) && id in r.next.pending && r.next.pending[id] == Pending
    ensures var r := SendCommand(s, id, command, None, args, true);
      r.outcome == Raised(ConnectionClosed) && r.next == s
  {
    assert s.pending[id := Pending] - {id} == s.pending;
  }

  /**
   The `finally` of `send_command` once `await future` has ended: the slot is
   popped and its state decides the call's result. A Pending slot means the
   awaiting task itself was cancelled. Popping an id that is not there is
   Python's KeyError.
   */
  function CompleteCommand(s: ClientState, id: string): (r: Transition)
    ensures id !in s.pending ==> r == Transition(s, Raised(KeyError))
    ensures id in s.pending ==>
      && r.next.pending.Keys == s.pending.Keys - {id}
      && (forall k :: k in r.next.pending ==> r.next.pending[k] == s.pending[k])
      && r.next == s.(pending := r.next.pending)
    ensures id in s.pending && s.pending[id].Resolved? ==> r.outcome == Returned(s.pending[id].value)
    ensures id in s.pending && s.pending[id].Rejected? ==>
      r.outcome == Raised(ServerError(s.pending[id].kind, s.pending[id].details))
    ensures id in s.pending && (s.pending[id].Cancelled? || s.pending[id].Pending?) ==> r.outcome == Raised(CancelledError)
  {
    if id !in s.pending then Transition(s, Raised(KeyError))
    else
      var outcome := match s.pending[id]
        case Resolved(v) => Returned(v)
        case Rejected(kind, details) => Raised(ServerError(kind, details))
        case _ => Raised(CancelledError);
      Transition(s.(pending := s.pending - {id}), outcome)
  }

  /**
   `send_command_no_wait`: gated on the server info rather than on the
   connection, same schema gate, and nothing is registered.
   */
  function SendCommandNoWait(
    s: ClientState, id: string, command: string, requireSchema: Option<int>,
    args: seq<(string, Json)>, transportFails: bool
  ): (r: Transition)
    ensures s.serverInfo.None? ==> r == Transition(s, Raised(InvalidState))
    ensures s.serverInfo.Some? && SchemaTooOld(requireSchema, s.serverInfo) ==>
      r == Transition(s, Raised(InvalidServerVersion))
    ensures s.serverInfo.Some? && !SchemaTooOld(requireSchema, s.serverInfo) && transportFails ==>
      r == Transition(s, Raised(ConnectionClosed))
    ensures r.outcome == Done <==> s.serverInfo.Some? && !SchemaTooOld(requireSchema, s.serverInfo) && !transportFails
    ensures r.outcome == Done ==> r.next == s.(outbox := s.outbox + [CommandMessage(id, command, args)])
    ensures r.outcome != Done ==> r.next == s
  {
    if s.serverInfo.None? then Transition(s, Raised(InvalidState))
    else if SchemaTooOld(requireSchema, s.serverInfo) then Transition(s, Raised(InvalidServerVersion))
    else if transportFails then Transition(s, Raised(ConnectionClosed))
    else Transition(s.(outbox := s.outbox + [CommandMessage(id, command, args)]), Done)
  }

  /** `future.cancel()`: a no-op on a future that is already done. */
  function CancelSlot(slot: Slot): Slot
  {
    if slot == Pending then Cancelled else slot
  }

  /**
   `disconnect` up to the point where it awaits the transport: the stop flag
   is set and every outstanding future is cancelled. Entries stay in the
   table until their own `finally` pops them.
   */
  function StopAndCancel(s: ClientState): (r: ClientState)
    ensures r.stopCalled
    ensures r.pending.Keys == s.pending.Keys
    ensures forall id :: id in s.pending && s.pending[id] == Pending ==> r.pending[id] == Cancelled
    ensures forall id :: id in s.pending && s.pending[id] != Pending ==> r.pending[id] == s.pending[id]
    ensures r == s.(stopCalled := true, pending := r.pending)
  {
    s.(stopCalled := true, pending := map id | id in s.pending :: CancelSlot(s.pending[id]))
  }

  /** The awaited `connection.disconnect()`: the transport is closed. */
  function CloseTransport(s: ClientState): ClientState
  {
    s.(connected := false)
  }

  /** `disconnect` run to completion with nothing interleaved at its await. */
  function Disconnect(s: ClientState): (r: ClientState)
    ensures r.stopCalled && !r.connected
    ensures r.pending.Keys == s.pending.Keys
    ensures forall id :: id in s.pending && s.pending[id] == Pending ==> r.pending[id] == Cancelled
    ensures forall id :: id in s.pending && s.pending[id] != Pending ==> r.pending[id] == s.pending[id]
    ensures r == s.(stopCalled := true, connected := false, pending := r.pending)
  {
    CloseTransport(StopAndCancel(s))
  }

  /**
   Settling the future of `id` (`set_result` / `set_exception`): a missing
   entry is ignored; a future that is already done makes asyncio raise
   InvalidStateError and keeps its first outcome.
   */
  function Settle(s: ClientState, id: string, slot: Slot): (r: Transition)
    ensures id !in s.pending ==> r == Transition(s, Done)
    ensures id in s.pending && s.pending[id] != Pending ==> r == Transition(s, Raised(FutureAlreadyDone))
    ensures id in s.pending && s.pending[id] == Pending ==>
      && r.outcome == Done
      && r.next.pending.Keys == s.pending.Keys
      && r.next.pending[id] == slot
      && (forall k :: k in s.pending && k != id ==> r.next.pending[k] == s.pending[k])
      && r.next == s.(pending := r.next.pending)
  {
    if id !in s.pending then Transition(s, Done)
    else if s.pending[id] != Pending then Transition(s, Raised(FutureAlreadyDone))
    else Transition(s.(pending := s.pending[id := slot]), Done)
  }

  /**
   `_handle_event`: nothing once the stop flag is set; a providers update
   replaces the provider map with the payload; then one delivery per matching
   subscriber is scheduled, in registration order.
   */
  function HandleEvent(s: ClientState, e: MassEvent): (r: Transition)
    ensures s.stopCalled ==> r == Transition(s, Done)
    ensures !s.stopCalled && !s.loopSet ==> r == Transition(s, Raised(AssertionFailed))
    ensures !s.stopCalled && s.loopSet && (e.event != ProvidersUpdated || e.data.ProviderList?) ==> r.outcome == Done
    ensures !s.stopCalled && s.loopSet && e.event == ProvidersUpdated && !e.data.ProviderList? ==>
      r == Transition(s, Raised(ParseFailed))
    ensures r.outcome != Done ==> r.next == s
    ensures r.next == s.(providers := r.next.providers, scheduled := r.next.scheduled)
    ensures r.outcome == Done && !s.stopCalled ==> r.next.scheduled == s.scheduled + Dispatch(s.subscribers, e)
    ensures e.event != ProvidersUpdated ==> r.next.providers == s.providers
    ensures !s.stopCalled && s.loopSet && e.event == ProvidersUpdated ==> (r.outcome == Done <==> e.data.ProviderList?)
    ensures e.event == ProvidersUpdated && r.outcome == Done && !s.stopCalled ==>
      && UniqueKeys(r.next.providers)
      && (forall k :: HasKey(r.next.providers, k) <==>
            exists i :: 0 <= i < |e.data.providers| && e.data.providers[i].instanceId == k)
      && Keys(r.next.providers) == FirstOccurrences(Providers.InstanceIds(e.data.providers))
      && (forall k :: OrderedMap.Get(r.next.providers, k) ==
            LastWithKey(Providers.ByInstanceId(e.data.providers), k))
  {
    if s.stopCalled then Transition(s, Done)
    else if !s.loopSet then Transition(s, Raised(AssertionFailed))
    else if e.event == ProvidersUpdated && !e.data.ProviderList? then Transition(s, Raised(ParseFailed))
    else
      var providers := if e.event == ProvidersUpdated then Providers.FromPayload(e.data.providers) else s.providers;
      Transition(s.(providers := providers, scheduled := s.scheduled + Dispatch(s.subscribers, e)), Done)
  }

  /** A future settles once: a second settlement fails and leaves the first outcome in place. */
  lemma SettleIsOneShot(s: ClientState, id: string, first: Slot, second: Slot)
    requires id in s.pending && s.pending[id] == Pending && first != Pending
    ensures var once := Settle(s, id, first);
      && once.next.pending[id] == first
      && Settle(once.next, id, second) == Transition(once.next, Raised(FutureAlreadyDone))
  {
  }

  /**
   `_handle_incoming_message`: a result settles the matching future, an event
   goes to HandleEvent, anything else is ignored. `errorMap` is the server
   library's `ERROR_MAP`.
   */
  function HandleIncoming(s: ClientState, msg: Incoming, errorMap: int -> ErrorKind): (r: Transition)
    ensures r.next.pending.Keys == s.pending.Keys
    ensures (msg.SuccessResult? || msg.ErrorResult?) && msg.messageId !in s.pending ==> r == Transition(s, Done)
    ensures (msg.SuccessResult? || msg.ErrorResult?) && msg.messageId in s.pending && s.pending[msg.messageId] != Pending ==>
      r == Transition(s, Raised(FutureAlreadyDone))
    ensures (msg.SuccessResult? || msg.ErrorResult?) && r.outcome == Done ==>
      && r.next == s.(pending := r.next.pending)
      && forall k :: k in s.pending && k != msg.messageId ==> r.next.pending[k] == s.pending[k]
    ensures msg.SuccessResult? && msg.messageId in s.pending && s.pending[msg.messageId] == Pending ==>
      r.outcome == Done && r.next.pending[msg.messageId] == Resolved(msg.result)
    ensures msg.ErrorResult? && msg.messageId in s.pending && s.pending[msg.messageId] == Pending ==>
      r.outcome == Done && r.next.pending[msg.messageId] == Rejected(errorMap(msg.errorCode), msg.details)
    ensures msg.EventMessage? ==> r == HandleEvent(s, msg.event)
    ensures msg.OtherMessage? ==> r == Transition(s, Done)
  {
    match msg
    case SuccessResult(id, result) => Settle(s, id, Resolved(result))
    case ErrorResult(id, code, details) => Settle(s, id, Rejected(errorMap(code), details))
    case EventMessage(e) => HandleEvent(s, e)
    case OtherMessage => Transition(s, Done)
  }

  /**
   The event loop running the oldest scheduled callback. The players cache's
   handler updates the cache; an exception it raises is reported by the loop
   and changes nothing. Outside callbacks have no effect on this state.
   */
  function RunNextDelivery(s: ClientState): (r: ClientState)
    ensures |s.scheduled| == 0 ==> r == s
    ensures |s.scheduled| > 0 ==> r.scheduled == s.scheduled[1..]
    ensures r == s.(players := r.players, scheduled := r.scheduled)
    ensures |s.scheduled| > 0 && s.scheduled[0].subscription.callback != PlayersHandler ==> r.players == s.players
    ensures |s.scheduled| > 0 && s.scheduled[0].subscription.callback == PlayersHandler ==>
      && (Players.HandleEvent(s.players, s.scheduled[0].event).Ok? ==>
            r.players == Players.HandleEvent(s.players, s.scheduled[0].event).value)
      && (Players.HandleEvent(s.players, s.scheduled[0].event).Err? ==> r.players == s.players)
  {
    if |s.scheduled| == 0 then s
    else
      var d := s.scheduled[0];
      var players :=
        if d.subscription.callback == PlayersHandler then
          match Players.HandleEvent(s.players, d.event)
          case Ok(cache) => cache
          case Err(_) => s.players
        else s.players;
      s.(players := players, scheduled := s.scheduled[1..])
  }
}

=== FILE: helpers.dfy ===
/**
 Compaction of media-item dicts: the verbose bookkeeping keys are dropped at
 every dict nesting level, and through lists whose elements are dicts.
 */
module Helpers {
  import opened Json
  import opened OrderedMap

  /** The six keys `compact_media_item_dict` pops. */
  const StrippedKeys: set<string> :=
    {"metadata", "provider_mappings", "favorite", "timestamp_added", "timestamp_modified", "mbid"}

  /** Drops every entry whose key is stripped, keeping the order of the rest. */
  function Strip(fields: seq<(string, Json)>): (r: seq<(string, Json)>)
    ensures forall p :: p in r <==> p in fields && p.0 !in StrippedKeys
  {
    if |fields| == 0 then []
    else if fields[0].0 in StrippedKeys then Strip(fields[1..])
    else [fields[0]] + Strip(fields[1..])
  }

  /**
   What compaction does to a value held in a dict: a dict is compacted, a list
   has its dict elements compacted (anything else in it, nested lists included,
   is kept as is), and every other value is unchanged.
   */
  function CompactValue(v: Json): Json
    decreases v, 1
  {
    match v
    case Object(fs) => Object(CompactMediaItem(fs))
    case Array(items) =>
      Array(seq(|items|, i requires 0 <= i < |items| =>
        if items[i].Object? then Object(CompactMediaItem(items[i].fields)) else items[i]))
    case _ => v
  }

  /** `compact_media_item_dict(item)`: the compacted field list of a dict. */
  function CompactMediaItem(item: seq<(string, Json)>): (r: seq<(string, Json)>)
    ensures forall i :: 0 <= i < |r| ==> r[i].0 !in StrippedKeys
    ensures FieldKeys(r) == FieldKeys(item) - StrippedKeys
    ensures Keys(r) == DropAll(Keys(item), StrippedKeys)
    ensures forall k, v :: (k, v) in r <==>
      k !in StrippedKeys && exists j :: 0 <= j < |item| && item[j].0 == k && v == CompactValue(item[j].1)
    decreases Object(item), 0
  {
    var mapped := seq(|item|, i requires 0 <= i < |item| => (item[i].0, CompactValue(item[i].1)));
    var r := Strip(mapped);
    KeysOfSameNames(mapped, item);
    StripKeepsOrder(mapped);
    assert forall i :: 0 <= i < |r| ==> r[i] in mapped;
    assert FieldKeys(r) == FieldKeys(item) - StrippedKeys by {
      forall k | k in FieldKeys(item) - StrippedKeys ensures k in FieldKeys(r) {
        var j :| 0 <= j < |item| && item[j].0 == k;
        assert mapped[j] in r;
      }
    }
    forall k, v | k !in StrippedKeys && (exists j :: 0 <= j < |item| && item[j].0 == k && v == CompactValue(item[j].1))
      ensures (k, v) in r
    {
      var j :| 0 <= j < |item| && item[j].0 == k && v == CompactValue(item[j].1);
      assert mapped[j] == (k, v);
    }
    r
  }

  /** Stripping keeps the remaining keys in their order. */
  lemma {:induction false} StripKeepsOrder(fields: seq<(string, Json)>)
    ensures Keys(Strip(fields)) == DropAll(Keys(fields), StrippedKeys)
  {
    if |fields| > 0 {
      StripKeepsOrder(fields[1..]);
      assert Keys(fields)[0] == fields[0].0 && Keys(fields)[1..] == Keys(fields[1..]);
      if fields[0].0 !in StrippedKeys {
        KeysCons(fields[0], Strip(fields[1..]));
      }
    }
  }

  /** A dict-valued entry of a compacted dict is itself compacted. */
  lemma NestedDictCompacted(item: seq<(string, Json)>, j: nat)
    requires j < |item| && item[j].0 !in StrippedKeys && item[j].1.Object?
    ensures (item[j].0, Object(CompactMediaItem(item[j].1.fields))) in CompactMediaItem(item)
  {
  }

  /**
   A list-valued entry keeps its length; each dict element is compacted and
   every other element, nested lists included, is unchanged.
   */
  lemma ListEntryCompacted(item: seq<(string, Json)>, j: nat)
    requires j < |item| && item[j].0 !in StrippedKeys && item[j].1.Array?
    ensures exists ys ::
      && (item[j].0, Array(ys)) in CompactMediaItem(item)
      && |ys| == |item[j].1.items|
      && forall i :: 0 <= i < |ys| ==>
        ys[i] == if item[j].1.items[i].Object?
                 then Object(CompactMediaItem(item[j].1.items[i].fields))
                 else item[j].1.items[i]
  {
    var ys := CompactValue(item[j].1).items;
    assert (item[j].0, Array(ys)) in CompactMediaItem(item);
  }

  lemma StripIdempotent(fields: seq<(string, Json)>)
    ensures Strip(Strip(fields)) == Strip(fields)
  {
  }

  /** Compacting an already compacted value changes nothing. */
  lemma {:induction false} CompactValueIdempotent(v: Json)
    ensures CompactValue(CompactValue(v)) == CompactValue(v)
    decreases v, 1
  {
    match v
    case Object(fs) => CompactMediaItemIdempotent(fs);
    case Array(items) =>
      var ys := CompactValue(v).items;
      forall i | 0 <= i < |items| && items[i].Object? ensures CompactValue(ys[i]) == ys[i] {
        CompactMediaItemIdempotent(items[i].fields);
      }
    case _ =>
  }

  /** `compact_media_item_dict` is idempotent. */
  lemma {:induction false} CompactMediaItemIdempotent(item: seq<(string, Json)>)
    ensures CompactMediaItem(CompactMediaItem(item)) == CompactMediaItem(item)
    decreases Object(item), 0
  {
    var mapped := seq(|item|, i requires 0 <= i < |item| => (item[i].0, CompactValue(item[i].1)));
    var h := CompactMediaItem(item);
    assert h == Strip(mapped);
    var again := seq(|h|, i requires 0 <= i < |h| => (h[i].0, CompactValue(h[i].1)));
    forall i | 0 <= i < |h| ensures again[i] == h[i] {
      assert h[i] in mapped;
      var j :| 0 <= j < |mapped| && mapped[j] == h[i];
      CompactValueIdempotent(item[j].1);
    }
    assert again == h;
    StripIdempotent(mapped);
  }

  /**
   `searchresults_as_compact_dict`: the search results as a dict from media-type
   key to a list of items; every dict item is compacted and anything else is
   left untouched.
   */
  function CompactSearchResults(results: seq<(string, seq<Json>)>): (r: seq<(string, seq<Json>)>)
    ensures |r| == |results|
    ensures forall t :: 0 <= t < |r| ==> r[t].0 == results[t].0 && |r[t].1| == |results[t].1|
    ensures forall t, i :: 0 <= t < |r| && 0 <= i < |r[t].1| && results[t].1[i].Object? ==>
      r[t].1[i] == Object(CompactMediaItem(results[t].1[i].fields))
    ensures forall t, i :: 0 <= t < |r| && 0 <= i < |r[t].1| && !results[t].1[i].Object? ==>
      r[t].1[i] == results[t].1[i]
  {
    seq(|results|, t requires 0 <= t < |results| =>
      (results[t].0, seq(|results[t].1|, i requires 0 <= i < |results[t].1| =>
        var item := results[t].1[i];
        if item.Object? then Object(CompactMediaItem(item.fields)) else item)))
  }

  /** Compacting search results twice is the same as compacting them once. */
  lemma CompactSearchResultsIdempotent(results: seq<(string, seq<Json>)>)
    ensures CompactSearchResults(CompactSearchResults(results)) == CompactSearchResults(results)
  {
    var once := CompactSearchResults(results);
    var twice := CompactSearchResults(once);
    forall t, i | 0 <= t < |results| && 0 <= i < |results[t].1| && results[t].1[i].Object?
      ensures twice[t].1[i] == once[t].1[i]
    {
      CompactMediaItemIdempotent(results[t].1[i].fields);
    }
    assert forall t :: 0 <= t < |results| ==> twice[t].1 == once[t].1;
  }
}

=== FILE: json.dfy ===
/** JSON-like values as they come out of `to_dict()` on the server's media models. */
module Json {

  /** Numbers are integers here: compaction never looks at them. */
  datatype Json =
    | Null
    | Bool(b: bool)
    | Number(n: int)
    | Str(s: string)
    | Array(items: seq<Json>)
    | Object(fields: seq<(string, Json)>)

  /** The set of keys of an object's field list. */
  function FieldKeys(fields: seq<(string, Json)>): set<string>
  {
    set i | 0 <= i < |fields| :: fields[i].0
  }
}

=== FILE: messages.dfy ===
/**
 The shapes the client receives from, and sends to, the server. Parsing
 (`parse_message`, the `from_dict` constructors) belongs to the server's
 models library; here every message arrives already classified.
 */
module Messages {
  import opened Options
  import opened Json

  /** What the server announces when the connection opens. */
  datatype ServerInfo = ServerInfo(
    serverId: string,
    serverVersion: string,
    schemaVersion: int,
    minSupportedSchemaVersion: int,
    baseUrl: string)

  /** The event types the core distinguishes; every other type is carried by name. */
  datatype EventType =
    | PlayerAdded
    | PlayerUpdated
    | PlayerRemoved
    | ProvidersUpdated
    | OtherEventType(name: string)

  /** A running provider: only the attributes `get_provider` reads. */
  datatype ProviderInstance = ProviderInstance(
    instanceId: string,
    domain: string,
    available: bool,
    isStreamingProvider: bool)

  /** A player: only the attributes the cache and the favourites guard read. */
  datatype Player = Player(playerId: string, activeSource: Option<string>)

  /** An event's `data`, as the models library would parse it. */
  datatype EventData =
    | PlayerData(player: Player)
    | ProviderList(providers: seq<ProviderInstance>)
    | OtherData(raw: Json)

  datatype MassEvent = MassEvent(event: EventType, objectId: Option<string>, data: EventData)

  /** An exception class of the server's error taxonomy (`ERROR_MAP`'s values). */
  datatype ErrorKind = ErrorKind(name: string)

  /** A frame read from the connection, after classification. */
  datatype Incoming =
    | SuccessResult(messageId: string, result: Json)
    | ErrorResult(messageId: string, errorCode: int, details: Json)
    | EventMessage(event: MassEvent)
    | OtherMessage

  /** An outgoing command: `CommandMessage(message_id, command, args)`. */
  datatype CommandMessage = CommandMessage(messageId: string, command: string, args: seq<(string, Json)>)

  /** The exceptions the modelled code raises or lets through. */
  datatype ClientError =
    | InvalidState                          // not connected
    | InvalidServerVersion                  // schema gate, at connect or per command
    | ConnectionFailed                      // the transport's connect raised
    | ConnectionClosed                      // the transport's send raised
    | CancelledError                        // asyncio: the awaited future was cancelled
    | ServerError(kind: ErrorKind, details: Json)
    | FutureAlreadyDone                     // asyncio's InvalidStateError on a settled future
    | KeyError
    | AssertionFailed
    | ParseFailed                           // `from_dict` rejected the payload
    | ValueError                            // `list.remove` of an absent listener
    | PlayerUnavailable
    | PlayerCommandFailed

  predicate IsPlayerEvent(t: EventType)
  {
    t == PlayerAdded || t == PlayerUpdated || t == PlayerRemoved
  }
}

=== FILE: options.dfy ===
/** Optional values and fallible results, shared by every module of the model. */
module Options {

  /** A value that may be absent: Python's `X | None`. */
  datatype Option<+T> = None | Some(value: T)

  /** Either a value or the exception the source would raise instead. */
  datatype Result<+T, +E> = Ok(value: T) | Err(error: E)
}

=== FILE: ordered_map.dfy ===
/**
 Insertion-ordered association lists with the semantics of a Python `dict`:
 assigning an existing key keeps its position and replaces its value, assigning
 a new key appends it, and iteration follows insertion order.
 */
module OrderedMap {
  import opened Options

  type Assoc<K, V> = seq<(K, V)>

  /** The keys in enumeration order. */
  function Keys<K, V>(m: Assoc<K, V>): seq<K>
  {
    if |m| == 0 then [] else [m[0].0] + Keys(m[1..])
  }

  predicate HasKey<K(==), V>(m: Assoc<K, V>, k: K)
  {
    k in Keys(m)
  }

  /** No key occurs twice, as in every Python dict. */
  predicate UniqueKeys<K(==), V>(m: Assoc<K, V>)
  {
    |m| == 0 || (!HasKey(m[1..], m[0].0) && UniqueKeys(m[1..]))
  }

  /** `d.get(k)`: the value stored under `k`, or None. */
  function Get<K(==), V>(m: Assoc<K, V>, k: K): (r: Option<V>)
    ensures r.Some? <==> HasKey(m, k)
    ensures r.Some? ==> (k, r.value) in m
  {
    if |m| == 0 then None
    else if m[0].0 == k then Some(m[0].1)
    else Get(m[1..], k)
  }

  /** `d[k] = v`. */
  function Put<K(==,!new), V>(m: Assoc<K, V>, k: K, v: V): (r: Assoc<K, V>)
    ensures Get(r, k) == Some(v)
    ensures forall k' :: k' != k ==> Get(r, k') == Get(m, k')
    ensures HasKey(m, k) ==> Keys(r) == Keys(m)
    ensures !HasKey(m, k) ==> r == m + [(k, v)]
    ensures UniqueKeys(m) ==> UniqueKeys(r)
  {
    if |m| == 0 then [(k, v)]
    else if m[0].0 == k then [(k, v)] + m[1..]
    else
      var rest := Put(m[1..], k, v);
      KeysCons(m[0], rest);
      KeysCons(m[0], m[1..]);
      GetCons(m[0], rest);
      GetCons(m[0], m[1..]);
      assert Get(rest, m[0].0) == Get(m[1..], m[0].0);
      UniqueCons(m[0], rest);
      [m[0]] + rest
  }

  /** `xs` without the elements of `gone`, the others keeping their order. */
  function DropAll<T(==)>(xs: seq<T>, gone: set<T>): seq<T>
  {
    if |xs| == 0 then []
    else if xs[0] in gone then DropAll(xs[1..], gone)
    else [xs[0]] + DropAll(xs[1..], gone)
  }

  /** `d.pop(k, None)`: drops the entry for `k`, if any. */
  function Remove<K(==,!new), V>(m: Assoc<K, V>, k: K): (r: Assoc<K, V>)
    ensures !HasKey(r, k)
    ensures Keys(r) == DropAll(Keys(m), {k})
    ensures forall k' :: k' != k ==> Get(r, k') == Get(m, k')
    ensures !HasKey(m, k) ==> r == m
    ensures UniqueKeys(m) ==> UniqueKeys(r)
  {
    if |m| == 0 then []
    else
      var rest := Remove(m[1..], k);
      assert Keys(m)[0] == m[0].0 && Keys(m)[1..] == Keys(m[1..]);
      if m[0].0 == k then rest
      else
        KeysCons(m[0], rest);
        KeysCons(m[0], m[1..]);
        GetCons(m[0], rest);
        GetCons(m[0], m[1..]);
        assert Get(rest, m[0].0) == Get(m[1..], m[0].0);
        UniqueCons(m[0], rest);
        [m[0]] + rest
  }

  /** Each value paired with its key, in order: the entries of a dict comprehension. */
  function KeyedBy<K, V>(vs: seq<V>, key: V -> K): (r: seq<(K, V)>)
    ensures |r| == |vs|
    ensures forall i :: 0 <= i < |r| ==> r[i] == (key(vs[i]), vs[i])
  {
    seq(|vs|, i requires 0 <= i < |vs| => (key(vs[i]), vs[i]))
  }

  /** The distinct elements of `xs`, each placed where it first occurs. */
  function FirstOccurrences<T(==,!new)>(xs: seq<T>): (r: seq<T>)
    ensures forall x :: x in r <==> x in xs
    ensures forall i, j :: 0 <= i < j < |r| ==> r[i] != r[j]
  {
    if |xs| == 0 then []
    else
      var init := xs[..|xs| - 1];
      var d := FirstOccurrences(init);
      assert forall x :: x in xs <==> x in init || x == xs[|xs| - 1];
      if xs[|xs| - 1] in d then d else d + [xs[|xs| - 1]]
  }

  /** The value of the LAST entry of `entries` whose key is `k`. */
  function LastWithKey<K(==), V>(entries: seq<(K, V)>, k: K): (r: Option<V>)
    ensures r.Some? <==> exists i :: 0 <= i < |entries| && entries[i].0 == k
    ensures r.Some? ==> (k, r.value) in entries
  {
    if |entries| == 0 then None
    else if entries[|entries| - 1].0 == k then Some(entries[|entries| - 1].1)
    else LastWithKey(entries[..|entries| - 1], k)
  }

  /** The lookup after assigning `entries` in order onto `m`: later assignments win. */
  function Overridden<K(==), V>(m: Assoc<K, V>, entries: seq<(K, V)>, k: K): Option<V>
  {
    match LastWithKey(entries, k)
    case Some(v) => Some(v)
    case None => Get(m, k)
  }

  /** In a dict, the stored pair for a key is the one `get` returns. */
  lemma {:induction false} GetOfUnique<K, V>(m: Assoc<K, V>, k: K, v: V)
    requires UniqueKeys(m)
    requires (k, v) in m
    ensures Get(m, k) == Some(v)
  {
    if m[0] != (k, v) {
      assert (k, v) in m[1..];
      GetOfUnique(m[1..], k, v);
    }
  }

  lemma GetCons<K, V>(x: (K, V), rest: Assoc<K, V>)
    ensures forall k :: Get([x] + rest, k) == if x.0 == k then Some(x.1) else Get(rest, k)
  {
    assert ([x] + rest)[1..] == rest;
  }

  lemma UniqueCons<K, V>(x: (K, V), rest: Assoc<K, V>)
    ensures UniqueKeys([x] + rest) <==> !HasKey(rest, x.0) && UniqueKeys(rest)
  {
    assert ([x] + rest)[1..] == rest;
  }

  lemma KeysCons<K, V>(x: (K, V), rest: Assoc<K, V>)
    ensures Keys([x] + rest) == [x.0] + Keys(rest)
  {
    assert ([x] + rest)[1..] == rest;
  }

  /** Appending an entry appends its key to the enumeration order. */
  lemma {:induction false} KeysAppend<K, V>(m: Assoc<K, V>, x: (K, V))
    ensures Keys(m + [x]) == Keys(m) + [x.0]
  {
    if |m| == 0 {
      assert m + [x] == [x] + m;
      KeysCons(x, m);
    } else {
      assert m + [x] == [m[0]] + (m[1..] + [x]);
      KeysCons(m[0], m[1..] + [x]);
      KeysAppend(m[1..], x);
      KeysCons(m[0], m[1..]);
      assert m == [m[0]] + m[1..];
    }
  }

  /** Two entry lists with the same keys at the same positions enumerate the same keys. */
  lemma {:induction false} KeysOfSameNames<K, V, W>(a: Assoc<K, V>, b: Assoc<K, W>)
    requires |a| == |b|
    requires forall i :: 0 <= i < |a| ==> a[i].0 == b[i].0
    ensures Keys(a) == Keys(b)
  {
    if |a| > 0 {
      KeysOfSameNames(a[1..], b[1..]);
    }
  }
}

=== FILE: players.dfy ===
/** The players cache: lookups, event-driven updates and the initial fetch. */
module Players {
  import opened Options
  import opened OrderedMap
  import opened Messages
  import opened Router

  type PlayerCache = Assoc<string, Player>

  /** The event types `Players.__init__` subscribes its handler to. */
  const PlayerEventTypes: seq<EventType> := [PlayerAdded, PlayerRemoved, PlayerUpdated]

  /** The listener the players cache registers when it is created. */
  const PlayersSubscription: Subscription := Subscription(PlayersHandler, Some(PlayerEventTypes), None)

  /** The handler is called for the three player event types and for nothing else. */
  lemma PlayersSubscriptionMatches(e: MassEvent)
    ensures Matches(PlayersSubscription, e) <==> IsPlayerEvent(e.event)
  {
  }

  /** `players.get(player_id)`. */
  function Get(cache: PlayerCache, playerId: string): (r: Option<Player>)
    ensures r.None? <==> !HasKey(cache, playerId)
    ensures UniqueKeys(cache) ==> forall p :: (playerId, p) in cache <==> r == Some(p)
  {
    var r := OrderedMap.Get(cache, playerId);
    assert UniqueKeys(cache) ==> forall p :: (playerId, p) in cache ==> r == Some(p) by {
      if UniqueKeys(cache) {
        forall p | (playerId, p) in cache ensures r == Some(p) {
          GetOfUnique(cache, playerId, p);
        }
      }
    }
    r
  }

  /** `players[player_id]`: KeyError when the id is not cached. */
  function GetItem(cache: PlayerCache, playerId: string): (r: Result<Player, ClientError>)
    ensures r.Err? <==> !HasKey(cache, playerId)
    ensures r.Err? ==> r.error == KeyError
    ensures r.Ok? ==> (playerId, r.value) in cache
  {
    match OrderedMap.Get(cache, playerId)
    case Some(p) => Ok(p)
    case None => Err(KeyError)
  }

  /** Python truthiness of `player.active_source`: neither None nor the empty string. */
  predicate HasActiveSource(p: Player)
  {
    p.activeSource.Some? && p.activeSource.value != ""
  }

  /**
   The guards at the head of `add_currently_playing_to_favorites`. They only
   read the cache, so a failure happens before any command is sent; what the
   method does after them is not part of this model.
   */
  function CheckFavoriteCandidate(cache: PlayerCache, playerId: string): (r: Result<Player, ClientError>)
    ensures r == Err(PlayerUnavailable) <==> !HasKey(cache, playerId)
    ensures r == Err(PlayerCommandFailed) <==>
      HasKey(cache, playerId) && !HasActiveSource(OrderedMap.Get(cache, playerId).value)
    ensures r.Ok? ==> OrderedMap.Get(cache, playerId) == Some(r.value) && HasActiveSource(r.value)
  {
    match OrderedMap.Get(cache, playerId)
    case None => Err(PlayerUnavailable)
    case Some(player) =>
      if !HasActiveSource(player) then Err(PlayerCommandFailed) else Ok(player)
  }

  /** Python truthiness of `event.object_id`, which the handler asserts. */
  predicate HasObjectId(e: MassEvent)
  {
    e.objectId.Some? && e.objectId.value != ""
  }

  /**
   `Players._handle_event`: an added or updated player is stored under the
   event's object id, a removed one is dropped, and every other event is
   ignored.
   */
  function HandleEvent(cache: PlayerCache, e: MassEvent): (r: Result<PlayerCache, ClientError>)
    ensures !IsPlayerEvent(e.event) ==> r == Ok(cache)
    ensures IsPlayerEvent(e.event) && !HasObjectId(e) ==> r == Err(AssertionFailed)
    ensures (e.event == PlayerAdded || e.event == PlayerUpdated) && HasObjectId(e) && !e.data.PlayerData? ==>
      r == Err(ParseFailed)
    ensures (e.event == PlayerAdded || e.event == PlayerUpdated) && HasObjectId(e) && e.data.PlayerData? ==> r.Ok?
    ensures (e.event == PlayerAdded || e.event == PlayerUpdated) && r.Ok? ==>
      && OrderedMap.Get(r.value, e.objectId.value) == Some(e.data.player)
      && forall k :: k != e.objectId.value ==> OrderedMap.Get(r.value, k) == OrderedMap.Get(cache, k)
    ensures e.event == PlayerRemoved && HasObjectId(e) ==> r.Ok?
    ensures e.event == PlayerRemoved && r.Ok? ==>
      && !HasKey(r.value, e.objectId.value)
      && forall k :: k != e.objectId.value ==> OrderedMap.Get(r.value, k) == OrderedMap.Get(cache, k)
    ensures r.Ok? && UniqueKeys(cache) ==> UniqueKeys(r.value)
  {
    if e.event == PlayerAdded || e.event == PlayerUpdated then
      if !HasObjectId(e) then Err(AssertionFailed)
      else if !e.data.PlayerData? then Err(ParseFailed)
      else Ok(Put(cache, e.objectId.value, e.data.player))
    else if e.event == PlayerRemoved then
      if !HasObjectId(e) then Err(AssertionFailed)
      else Ok(Remove(cache, e.objectId.value))
    else Ok(cache)
  }

  /** The key the cache stores a player under. */
  function PlayerId(p: Player): string
  {
    p.playerId
  }

  /** Each fetched player paired with its player id, in fetch order. */
  function ById(players: seq<Player>): (r: seq<(string, Player)>)
    ensures |r| == |players|
    ensures forall i :: 0 <= i < |r| ==> r[i] == (players[i].playerId, players[i])
  {
    KeyedBy(players, PlayerId)
  }

  /**
   `Players.fetch_state`, given the players the server returned: each one is
   stored under its player id, a later duplicate overwriting an earlier one,
   and nothing already cached is removed.
   */
  method FetchState(cache: PlayerCache, fetched: seq<Player>) returns (r: PlayerCache)
    ensures forall id :: OrderedMap.Get(r, id) == Overridden(cache, ById(fetched), id)
    ensures forall id :: HasKey(cache, id) ==> HasKey(r, id)
    ensures UniqueKeys(cache) ==> UniqueKeys(r)
  {
    var keyed := ById(fetched);
    r := cache;
    var i := 0;
    while i < |fetched|
      invariant 0 <= i <= |fetched|
      invariant forall id :: OrderedMap.Get(r, id) == Overridden(cache, keyed[..i], id)
      invariant UniqueKeys(cache) ==> UniqueKeys(r)
    {
      assert keyed[..i + 1][..i] == keyed[..i];
      r := Put(r, fetched[i].playerId, fetched[i]);
      i := i + 1;
    }
    assert keyed[..i] == keyed;
    forall id | HasKey(cache, id) ensures HasKey(r, id) {
      assert OrderedMap.Get(cache, id).Some?;
      assert OrderedMap.Get(r, id) == Overridden(cache, keyed, id);
    }
  }
}

=== FILE: providers.dfy ===
/**
 The client's mirror of the server's provider instances, keyed by instance id
 in enumeration order, and the `get_provider` lookup over it.
 */
module Providers {
  import opened Options
  import opened OrderedMap
  import opened Messages

  type ProviderMap = Assoc<string, ProviderInstance>

  /** A provider the domain scan may return. */
  predicate Eligible(p: ProviderInstance, domain: string, returnUnavailable: bool)
  {
    p.domain == domain && (returnUnavailable || p.available)
  }

  /** `r` is the first eligible provider in enumeration order, or None when there is none. */
  ghost predicate IsFirstEligible(ps: ProviderMap, domain: string, returnUnavailable: bool, r: Option<ProviderInstance>)
  {
    match r
    case None => forall i :: 0 <= i < |ps| ==> !Eligible(ps[i].1, domain, returnUnavailable)
    case Some(p) =>
      exists i :: 0 <= i < |ps| && ps[i].1 == p && Eligible(p, domain, returnUnavailable)
                  && forall j :: 0 <= j < i ==> !Eligible(ps[j].1, domain, returnUnavailable)
  }

  /** The fallback loop of `get_provider`: scan the instances for a domain match. */
  function FirstByDomain(ps: ProviderMap, domain: string, returnUnavailable: bool): (r: Option<ProviderInstance>)
    ensures IsFirstEligible(ps, domain, returnUnavailable, r)
  {
    if |ps| == 0 then None
    else if Eligible(ps[0].1, domain, returnUnavailable) then Some(ps[0].1)
    else
      var r := FirstByDomain(ps[1..], domain, returnUnavailable);
      if r.Some? then
        var i :| 0 <= i < |ps[1..]| && ps[1..][i].1 == r.value && Eligible(r.value, domain, returnUnavailable)
                 && forall j :: 0 <= j < i ==> !Eligible(ps[1..][j].1, domain, returnUnavailable);
        assert ps[i + 1].1 == r.value;
        assert forall j :: 0 <= j < i + 1 ==> !Eligible(ps[j].1, domain, returnUnavailable) by {
          forall j | 0 < j < i + 1 ensures !Eligible(ps[j].1, domain, returnUnavailable) {
            assert ps[j] == ps[1..][j - 1];
          }
        }
        r
      else
        assert forall i :: 0 < i < |ps| ==> ps[i] == ps[1..][i - 1];
        r
  }

  /**
   `get_provider(provider_instance_or_domain, return_unavailable)`: an exact
   instance-id hit first; an unavailable hit of a provider that is not a
   streaming provider ends the search; otherwise the domain scan, on the
   argument or on the streaming hit's domain.
   */
  function GetProvider(ps: ProviderMap, key: string, returnUnavailable: bool): (r: Option<ProviderInstance>)
    ensures Get(ps, key).Some? && (returnUnavailable || Get(ps, key).value.available) ==> r == Get(ps, key)
    ensures (Get(ps, key).Some? && !returnUnavailable && !Get(ps, key).value.available
             && !Get(ps, key).value.isStreamingProvider) ==> r.None?
    ensures (Get(ps, key).Some? && !returnUnavailable && !Get(ps, key).value.available
             && Get(ps, key).value.isStreamingProvider) ==> IsFirstEligible(ps, Get(ps, key).value.domain, false, r)
    ensures Get(ps, key).None? ==> IsFirstEligible(ps, key, returnUnavailable, r)
    ensures r.Some? && !returnUnavailable ==> r.value.available
  {
    match Get(ps, key)
    case Some(hit) =>
      if returnUnavailable || hit.available then Some(hit)
      else if !hit.isStreamingProvider then None
      else FirstByDomain(ps, hit.domain, returnUnavailable)
    case None => FirstByDomain(ps, key, returnUnavailable)
  }

  /** The key `get_provider` and the providers map use for an instance. */
  function InstanceId(p: ProviderInstance): string
  {
    p.instanceId
  }

  /** Each instance paired with its instance id, in payload order. */
  function ByInstanceId(payload: seq<ProviderInstance>): (r: seq<(string, ProviderInstance)>)
    ensures |r| == |payload|
    ensures forall i :: 0 <= i < |r| ==> r[i] == (payload[i].instanceId, payload[i])
  {
    KeyedBy(payload, InstanceId)
  }

  /** The payload's instance ids, in payload order and with repeats. */
  function InstanceIds(payload: seq<ProviderInstance>): (r: seq<string>)
    ensures |r| == |payload|
    ensures forall i :: 0 <= i < |r| ==> r[i] == payload[i].instanceId
  {
    seq(|payload|, i requires 0 <= i < |payload| => payload[i].instanceId)
  }

  /**
   The provider map rebuilt from a PROVIDERS_UPDATED payload: a new map that
   holds exactly the payload's instances, each under its own instance id. A
   repeated id keeps the position of its first occurrence and the value of
   its last one.
   */
  function FromPayload(payload: seq<ProviderInstance>): (r: ProviderMap)
    ensures UniqueKeys(r)
    ensures Keys(r) == FirstOccurrences(InstanceIds(payload))
    ensures forall k :: Get(r, k) == LastWithKey(ByInstanceId(payload), k)
    ensures forall k :: HasKey(r, k) <==> exists i :: 0 <= i < |payload| && payload[i].instanceId == k
  {
    if |payload| == 0 then []
    else
      var init := payload[..|payload| - 1];
      var last := payload[|payload| - 1];
      var m := FromPayload(init);
      assert ByInstanceId(payload)[..|payload| - 1] == ByInstanceId(init);
      assert InstanceIds(payload)[..|payload| - 1] == InstanceIds(init);
      assert forall i :: 0 <= i < |init| ==> init[i] == payload[i];
      var r := Put(m, last.instanceId, last);
      assert !HasKey(m, last.instanceId) ==> Keys(r) == Keys(m) + [last.instanceId] by {
        KeysAppend(m, (last.instanceId, last));
      }
      assert forall k :: HasKey(r, k) <==> Get(r, k).Some?;
      r
  }

  /** A payload whose instance ids are all different is rebuilt as itself, keyed and in order. */
  lemma {:induction false} FromDistinctPayload(payload: seq<ProviderInstance>)
    requires forall i, j :: 0 <= i < j < |payload| ==> payload[i].instanceId != payload[j].instanceId
    ensures FromPayload(payload) == ByInstanceId(payload)
  {
    if |payload| > 0 {
      var init := payload[..|payload| - 1];
      var last := payload[|payload| - 1];
      assert forall i :: 0 <= i < |init| ==> init[i] == payload[i];
      FromDistinctPayload(init);
      var front := FromPayload(init);
      assert !HasKey(front, last.instanceId);
      assert FromPayload(payload) == Put(front, last.instanceId, last);
      assert Put(front, last.instanceId, last) == front + [(last.instanceId, last)];
      ByInstanceIdSnoc(payload);
    }
  }

  lemma ByInstanceIdSnoc(payload: seq<ProviderInstance>)
    requires |payload| > 0
    ensures var last := payload[|payload| - 1];
      ByInstanceId(payload) == ByInstanceId(payload[..|payload| - 1]) + [(last.instanceId, last)]
  {
    var last := payload[|payload| - 1];
    var whole, front := ByInstanceId(payload), ByInstanceId(payload[..|payload| - 1]);
    assert forall i :: 0 <= i < |front| ==> whole[i] == front[i];
    assert whole == front + [(last.instanceId, last)];
  }

  /**
   After a PROVIDERS_UPDATED snapshot with distinct instance ids, looking up a
   domain that is no instance id returns the first eligible instance in
   payload order.
   */
  lemma SnapshotFallbackFollowsPayloadOrder(payload: seq<ProviderInstance>, domain: string, returnUnavailable: bool)
    requires forall i, j :: 0 <= i < j < |payload| ==> payload[i].instanceId != payload[j].instanceId
    requires forall i :: 0 <= i < |payload| ==> payload[i].instanceId != domain
    ensures var r := GetProvider(FromPayload(payload), domain, returnUnavailable);
      match r
      case None => forall i :: 0 <= i < |payload| ==> !Eligible(payload[i], domain, returnUnavailable)
      case Some(p) =>
        exists i :: 0 <= i < |payload| && payload[i] == p && Eligible(p, domain, returnUnavailable)
                    && forall j :: 0 <= j < i ==> !Eligible(payload[j], domain, returnUnavailable)
  {
    FromDistinctPayload(payload);
    assert Get(FromPayload(payload), domain).None?;
  }
}

=== FILE: router.dfy ===
/**
 The subscriber registry: `subscribe`, the remover it returns, and the filter
 that decides which subscribers an event is delivered to.
 */
module Router {
  import opened Options
  import opened Messages

  /** The identity of a callback (`cb_func`): the players cache's handler, or an outside caller's. */
  datatype Callback = PlayersHandler | External(id: nat)

  /** A filter as the caller passes it: one value, or a tuple of values. */
  datatype FilterArg<T> = Single(item: T) | Tuple(items: seq<T>)

  /** A stored listener `(cb_func, event_filter, id_filter)`; a None filter lets everything through. */
  datatype Subscription = Subscription(
    callback: Callback,
    eventFilter: Option<seq<EventType>>,
    idFilter: Option<seq<string>>)

  /** A callback invocation handed to the event loop. */
  datatype Delivery = Delivery(subscription: Subscription, event: MassEvent)

  /** A single value becomes a one-element tuple. */
  function Normalise<T>(arg: Option<FilterArg<T>>): Option<seq<T>>
  {
    match arg
    case None => None
    case Some(Single(x)) => Some([x])
    case Some(Tuple(xs)) => Some(xs)
  }

  /** Whether a filter, as the caller wrote it, admits `x`. */
  predicate Admits<T(==)>(arg: Option<FilterArg<T>>, x: T)
  {
    match arg
    case None => true
    case Some(Single(y)) => x == y
    case Some(Tuple(ys)) => x in ys
  }

  /** The dispatch test: both filters unset or containing the event's type and object id. */
  predicate Matches(s: Subscription, e: MassEvent)
  {
    && (s.eventFilter.None? || e.event in s.eventFilter.value)
    && (s.idFilter.None? || (e.objectId.Some? && e.objectId.value in s.idFilter.value))
  }

  /** `subscribe`: appends the listener and hands it back as the removal handle. */
  function Subscribe(
    subs: seq<Subscription>,
    cb: Callback,
    eventFilter: Option<FilterArg<EventType>>,
    idFilter: Option<FilterArg<string>>
  ): (r: (seq<Subscription>, Subscription))
    ensures r.0 == subs + [r.1]
    ensures r.1.callback == cb
    ensures forall e: MassEvent :: Matches(r.1, e) <==>
      && Admits(eventFilter, e.event)
      && (idFilter.None? || (e.objectId.Some? && Admits(idFilter, e.objectId.value)))
  {
    var listener := Subscription(cb, Normalise(eventFilter), Normalise(idFilter));
    (subs + [listener], listener)
  }

  /** The position of the first occurrence of `x` in `s`. */
  function FirstIndex<T(==)>(s: seq<T>, x: T): (i: nat)
    requires x in s
    ensures i < |s| && s[i] == x && x !in s[..i]
  {
    if s[0] == x then 0
    else
      var j := FirstIndex(s[1..], x);
      assert s[..j + 1] == [s[0]] + s[1..][..j];
      j + 1
  }

  /** The remover: `list.remove`, which drops the first equal listener or raises ValueError. */
  function Unsubscribe(subs: seq<Subscription>, listener: Subscription): (r: Result<seq<Subscription>, ClientError>)
    ensures r.Err? <==> listener !in subs
    ensures r.Err? ==> r.error == ValueError
    ensures r.Ok? ==> exists i :: 0 <= i < |subs| && subs[i] == listener && listener !in subs[..i]
                                   && r.value == subs[..i] + subs[i + 1..]
    ensures r.Ok? ==> multiset(r.value) + multiset{listener} == multiset(subs)
  {
    if listener !in subs then Err(ValueError)
    else
      var i := FirstIndex(subs, listener);
      assert subs == subs[..i] + [listener] + subs[i + 1..];
      Ok(subs[..i] + subs[i + 1..])
  }

  /** Removing a listener right after adding it restores the registry, when it was not already there. */
  lemma SubscribeThenUnsubscribe(
    subs: seq<Subscription>,
    cb: Callback,
    eventFilter: Option<FilterArg<EventType>>,
    idFilter: Option<FilterArg<string>>)
    ensures var (subs', listener) := Subscribe(subs, cb, eventFilter, idFilter);
      && Unsubscribe(subs', listener).Ok?
      && multiset(Unsubscribe(subs', listener).value) == multiset(subs)
      && (listener !in subs ==> Unsubscribe(subs', listener) == Ok(subs))
  {
    var (subs', listener) := Subscribe(subs, cb, eventFilter, idFilter);
    var r := Unsubscribe(subs', listener);
    assert multiset(subs') == multiset(subs) + multiset{listener};
    assert multiset(r.value) == multiset(subs') - multiset{listener};
    if listener !in subs {
      assert subs'[..|subs|] == subs;
      assert r.value == subs;
    }
  }

  /** `_handle_event`'s loop: one delivery per matching subscriber, in registration order. */
  function Dispatch(subs: seq<Subscription>, e: MassEvent): (r: seq<Delivery>)
    ensures |r| <= |subs|
    ensures forall d :: d in r <==> d.event == e && d.subscription in subs && Matches(d.subscription, e)
  {
    if |subs| == 0 then []
    else
      var rest := Dispatch(subs[1..], e);
      assert forall s :: s in subs <==> s == subs[0] || s in subs[1..];
      (if Matches(subs[0], e) then [Delivery(subs[0], e)] else []) + rest
  }

  /** Deliveries follow registration order: dispatching to `a + b` is dispatching to `a`, then to `b`. */
  lemma {:induction false} DispatchAppend(a: seq<Subscription>, b: seq<Subscription>, e: MassEvent)
    ensures Dispatch(a + b, e) == Dispatch(a, e) + Dispatch(b, e)
  {
    if |a| == 0 {
      assert a + b == b;
    } else {
      assert (a + b)[1..] == a[1..] + b;
      DispatchAppend(a[1..], b, e);
    }
  }

  /** A subscriber registered without filters receives every event. */
  lemma UnfilteredReceivesAll(subs: seq<Subscription>, cb: Callback, e: MassEvent)
    ensures var (subs', listener) := Subscribe(subs, cb, None, None);
      Delivery(listener, e) in Dispatch(subs', e)
  {
  }
}

=== FILE: session.dfy ===
/**
 Runs of the client: any interleaving of calls, incoming frames, teardown and
 callback executions, and what they guarantee about each pending command.
 */
module Session {
  import opened Options
  import opened Json
  import opened Messages
  import opened Router
  import opened Client
  import Players

  /** One thing that can happen to the client. */
  datatype Action =
    | Connect(apiSchema: int, handshake: Handshake)
    | Send(id: string, command: string, requireSchema: Option<int>, args: seq<(string, Json)>, transportFails: bool)
    | SendNoWait(id: string, command: string, requireSchema: Option<int>, args: seq<(string, Json)>, transportFails: bool)
    | Complete(id: string)
    | Receive(msg: Incoming)
    | Stop
    | Close
    | Deliver
    | AddListener(cb: Callback, eventFilter: Option<FilterArg<EventType>>, idFilter: Option<FilterArg<string>>)
    | RemoveListener(listener: Subscription)

  /** Which `send_command` a run uses: the code as written, or the corrected one. */
  datatype Variant = AsWritten | Corrected

  function Step(s: ClientState, a: Action, errorMap: int -> ErrorKind, variant: Variant): Transition
  {
    match a
    case Connect(apiSchema, handshake) => Client.Connect(s, apiSchema, handshake)
    case Send(id, command, requireSchema, args, fails) =>
      if variant == AsWritten then SendCommandAsWritten(s, id, command, requireSchema, args, fails)
      else SendCommand(s, id, command, requireSchema, args, fails)
    case SendNoWait(id, command, requireSchema, args, fails) => SendCommandNoWait(s, id, command, requireSchema, args, fails)
    case Complete(id) => CompleteCommand(s, id)
    case Receive(msg) => HandleIncoming(s, msg, errorMap)
    case Stop => Transition(StopAndCancel(s), Done)
    case Close => Transition(CloseTransport(s), Done)
    case Deliver => Transition(RunNextDelivery(s), Done)
    case AddListener(cb, eventFilter, idFilter) =>
      Transition(s.(subscribers := Router.Subscribe(s.subscribers, cb, eventFilter, idFilter).0), Done)
    case RemoveListener(listener) =>
      match Router.Unsubscribe(s.subscribers, listener)
      case Ok(subs) => Transition(s.(subscribers := subs), Done)
      case Err(error) => Transition(s, Raised(error))
  }

  function Run(s: ClientState, trace: seq<Action>, errorMap: int -> ErrorKind, variant: Variant): ClientState
    decreases |trace|
  {
    if |trace| == 0 then s else Run(Step(s, trace[0], errorMap, variant).next, trace[1..], errorMap, variant)
  }

  /** Actions that settle the future of `id`: a result carrying `id`, or the cancelling half of teardown. */
  predicate Settles(a: Action, id: string)
  {
    a.Stop? || (a.Receive? && (a.msg.SuccessResult? || a.msg.ErrorResult?) && a.msg.messageId == id)
  }

  /** The slot state a settling action leaves behind. */
  function SettledBy(a: Action, errorMap: int -> ErrorKind): Slot
  {
    if a.Receive? && a.msg.SuccessResult? then Resolved(a.msg.result)
    else if a.Receive? && a.msg.ErrorResult? then Rejected(errorMap(a.msg.errorCode), a.msg.details)
    else Slot.Cancelled
  }

  /** The effect of the first action of `trace` that settles `id`, if any. */
  function FirstSettlement(trace: seq<Action>, id: string, errorMap: int -> ErrorKind): Option<Slot>
  {
    if |trace| == 0 then None
    else if Settles(trace[0], id) then Some(SettledBy(trace[0], errorMap))
    else FirstSettlement(trace[1..], id, errorMap)
  }

  /** No action of `trace` reuses `id` for a new command or pops it. */
  predicate LeavesIdAlone(trace: seq<Action>, id: string)
  {
    forall i :: 0 <= i < |trace| ==> !(trace[i].Send? && trace[i].id == id) && trace[i] != Complete(id)
  }

  /** One step keeps the entry of `id`, and changes its slot only by settling a Pending one. */
  lemma StepKeepsSlot(s: ClientState, a: Action, id: string, errorMap: int -> ErrorKind, variant: Variant)
    requires id in s.pending
    requires !(a.Send? && a.id == id) && a != Complete(id)
    ensures var next := Step(s, a, errorMap, variant).next;
      && id in next.pending
      && next.pending[id] == if s.pending[id] == Pending && Settles(a, id) then SettledBy(a, errorMap) else s.pending[id]
  {
    match a
    case Receive(msg) =>
      if msg.EventMessage? {
        assert HandleIncoming(s, msg, errorMap) == HandleEvent(s, msg.event);
      }
    case _ =>
  }

  /**
   Whatever else happens in between, the entry of a command stays in the table
   until its own `finally` pops it, and its slot holds exactly the outcome of
   the first result carrying its id or of the first teardown, whichever comes
   first; later results and teardowns leave it alone. This holds for both
   variants of `send_command`.
   */
  lemma {:induction false} SlotFollowsFirstSettlement(
    s: ClientState, trace: seq<Action>, id: string, errorMap: int -> ErrorKind, variant: Variant)
    requires id in s.pending
    requires LeavesIdAlone(trace, id)
    ensures id in Run(s, trace, errorMap, variant).pending
    ensures s.pending[id] != Pending ==> Run(s, trace, errorMap, variant).pending[id] == s.pending[id]
    ensures s.pending[id] == Pending ==>
      Run(s, trace, errorMap, variant).pending[id] == match FirstSettlement(trace, id, errorMap)
                                             case None => Pending
                                             case Some(slot) => slot
    decreases |trace|
  {
    if |trace| > 0 {
      var next := Step(s, trace[0], errorMap, variant).next;
      StepKeepsSlot(s, trace[0], id, errorMap, variant);
      assert LeavesIdAlone(trace[1..], id) by {
        forall i | 0 <= i < |trace[1..]| ensures !(trace[1..][i].Send? && trace[1..][i].id == id) && trace[1..][i] != Complete(id) {
          assert trace[1..][i] == trace[i + 1];
        }
      }
      SlotFollowsFirstSettlement(next, trace[1..], id, errorMap, variant);
    }
  }

  /**
   Each `send_command` returns exactly what the first result carrying its own
   id says (or fails with CancelledError after a teardown), whatever other
   commands, results and events are interleaved; its entry is then gone.
   */
  lemma CompleteReturnsMatchingResult(
    s: ClientState, trace: seq<Action>, id: string, errorMap: int -> ErrorKind, variant: Variant)
    requires id in s.pending && s.pending[id] == Pending
    requires LeavesIdAlone(trace, id)
    ensures var before := Run(s, trace, errorMap, variant);
      var r := CompleteCommand(before, id);
      && id !in r.next.pending
      && r.outcome == match FirstSettlement(trace, id, errorMap)
                      case Some(Resolved(v)) => Returned(v)
                      case Some(Rejected(kind, details)) => Raised(ServerError(kind, details))
                      case _ => Raised(CancelledError)
  {
    SlotFollowsFirstSettlement(s, trace, id, errorMap, variant);
  }

  /** The entry is popped exactly once: a second pop of the same id is a KeyError and changes nothing. */
  lemma RemovedExactlyOnce(s: ClientState, id: string)
    requires id in s.pending
    ensures var first := CompleteCommand(s, id);
      && id !in first.next.pending
      && CompleteCommand(first.next, id) == Transition(first.next, Raised(KeyError))
  {
  }

  /**
   A command that passes its guards registers its id; none of the guard
   failures registers anything or sends anything.
   */
  lemma GuardsComeFirst(s: ClientState, id: string, command: string, requireSchema: Option<int>, args: seq<(string, Json)>)
    requires id !in s.pending
    ensures var r := SendCommand(s, id, command, requireSchema, args, false);
      (r.outcome == Waiting && id in r.next.pending) || (r.next == s && r.outcome.Raised?)
  {
  }

  /**
   After `disconnect`, no slot is still Pending; every command that was waiting
   ends with CancelledError when its `finally` runs, and later events are dropped.
   */
  lemma DisconnectSettlesEverything(s: ClientState, id: string, e: MassEvent)
    requires id in s.pending && s.pending[id] == Pending
    ensures var d := Disconnect(s);
      && (forall k :: k in d.pending ==> d.pending[k] != Pending)
      && CompleteCommand(d, id).outcome == Raised(CancelledError)
      && HandleEvent(d, e) == Transition(d, Done)
  {
  }

  /**
   A fresh client facing a server that no longer supports its schema fails
   to connect, stays disconnected with no server info, and then refuses both
   kinds of command without sending anything.
   */
  lemma IncompatibleServerScenario(apiSchema: int, info: ServerInfo, id: string, command: string)
    requires info.minSupportedSchemaVersion > apiSchema
    ensures var c := Client.Connect(Init(), apiSchema, Received(info));
      && c.outcome == Raised(InvalidServerVersion)
      && !c.next.connected && c.next.serverInfo.None?
      && SendCommand(c.next, id, command, None, [], false) == Transition(c.next, Raised(InvalidState))
      && SendCommandNoWait(c.next, id, command, None, [], false) == Transition(c.next, Raised(InvalidState))
  {
  }

  /**
   A fresh client whose handshake payload cannot be parsed stays connected
   without server info. Every later `connect` returns early, so the server
   info is never set; `send_command` then passes its guards without any
   schema gate, while `send_command_no_wait` keeps refusing.
   */
  lemma UnparseableHandshakeScenario(
    apiSchema: int, later: Handshake, id: string, command: string, requireSchema: int)
    ensures var c := Client.Connect(Init(), apiSchema, Unparseable);
      && c.outcome == Raised(ParseFailed)
      && c.next.connected && c.next.serverInfo.None?
      && Client.Connect(c.next, apiSchema, later) == Transition(c.next, Done)
      && SendCommand(c.next, id, command, Some(requireSchema), [], false).outcome == Waiting
      && SendCommandNoWait(c.next, id, command, Some(requireSchema), [], false) == Transition(c.next, Raised(InvalidState))
  {
  }

  /**
   Two commands sent back to back get their own ids and each returns its own
   result, even when the server answers them in the opposite order.
   */
  lemma OutOfOrderResults(
    s: ClientState, a: string, b: string, va: Json, vb: Json, errorMap: int -> ErrorKind, variant: Variant)
    requires s.connected && s.loopSet && a != b && a !in s.pending && b !in s.pending
    ensures
      var s1 := SendCommand(s, a, "players/cmd/play", None, [], false).next;
      var s2 := SendCommand(s1, b, "players/cmd/play", None, [], false).next;
      var trace := [Receive(SuccessResult(b, vb)), Receive(SuccessResult(a, va))];
      var s3 := Run(s2, trace, errorMap, variant);
      && CompleteCommand(s3, a).outcome == Returned(va)
      && CompleteCommand(CompleteCommand(s3, a).next, b).outcome == Returned(vb)
  {
    var s1 := SendCommand(s, a, "players/cmd/play", None, [], false).next;
    var s2 := SendCommand(s1, b, "players/cmd/play", None, [], false).next;
    var trace := [Receive(SuccessResult(b, vb)), Receive(SuccessResult(a, va))];
    assert trace[1..][1..] == [];
    SlotFollowsFirstSettlement(s2, trace, a, errorMap, variant);
    SlotFollowsFirstSettlement(s2, trace, b, errorMap, variant);
  }

  /**
   Whatever else is registered or already queued, handling an event queues a
   delivery to the players cache's handler iff it is one of the three player
   events, after everything queued before, and every event but a malformed
   PROVIDERS_UPDATED is handled. The handler stores an added or updated
   player under the object id, drops a removed one, and leaves the cache as
   it was on any other event.
   */
  lemma PlayerHandlerSeesOnlyPlayerEvents(s: ClientState, e: MassEvent)
    requires Players.PlayersSubscription in s.subscribers
    requires s.loopSet && !s.stopCalled
    ensures var h := HandleEvent(s, e);
      && (e.event != ProvidersUpdated || e.data.ProviderList? ==> h.outcome == Done)
      && |s.scheduled| <= |h.next.scheduled|
      && h.next.scheduled[..|s.scheduled|] == s.scheduled
      && (Delivery(Players.PlayersSubscription, e) in h.next.scheduled[|s.scheduled|..] <==> IsPlayerEvent(e.event))
    ensures !IsPlayerEvent(e.event) ==> Players.HandleEvent(s.players, e) == Ok(s.players)
    ensures (e.event == PlayerAdded || e.event == PlayerUpdated) && Players.HasObjectId(e) && e.data.PlayerData? ==>
      && Players.HandleEvent(s.players, e).Ok?
      && OrderedMap.Get(Players.HandleEvent(s.players, e).value, e.objectId.value) == Some(e.data.player)
    ensures e.event == PlayerRemoved && Players.HasObjectId(e) ==>
      && Players.HandleEvent(s.players, e).Ok?
      && !OrderedMap.HasKey(Players.HandleEvent(s.players, e).value, e.objectId.value)
  {
    var h := HandleEvent(s, e);
    if h.outcome == Done {
      assert h.next.scheduled[|s.scheduled|..] == Dispatch(s.subscribers, e);
      Players.PlayersSubscriptionMatches(e);
    } else {
      assert h.next.scheduled[|s.scheduled|..] == [];
    }
  }

  /** One step keeps both caches dicts. */
  lemma StepKeepsCaches(s: ClientState, a: Action, errorMap: int -> ErrorKind, variant: Variant)
    requires CachesAreDicts(s)
    ensures CachesAreDicts(Step(s, a, errorMap, variant).next)
  {
    match a
    case Receive(msg) =>
      if msg.EventMessage? {
        assert HandleIncoming(s, msg, errorMap) == HandleEvent(s, msg.event);
      }
    case _ =>
  }

  /**
   No run ever puts a key twice into the providers map or the players cache,
   so the lookups over them behave as the dicts they model.
   */
  lemma {:induction false} RunKeepsCaches(s: ClientState, trace: seq<Action>, errorMap: int -> ErrorKind, variant: Variant)
    requires CachesAreDicts(s)
    ensures CachesAreDicts(Run(s, trace, errorMap, variant))
    decreases |trace|
  {
    if |trace| > 0 {
      StepKeepsCaches(s, trace[0], errorMap, variant);
      RunKeepsCaches(Step(s, trace[0], errorMap, variant).next, trace[1..], errorMap, variant);
    }
  }

  /** In any run from a fresh client, `players.get` returns the one player stored under an id. */
  lemma FreshRunPlayersAreDict(trace: seq<Action>, errorMap: int -> ErrorKind, variant: Variant, playerId: string, p: Player)
    ensures var cache := Run(Init(), trace, errorMap, variant).players;
      (playerId, p) in cache <==> Players.Get(cache, playerId) == Some(p)
  {
    RunKeepsCaches(Init(), trace, errorMap, variant);
  }

  /**
   A client that connected successfully keeps that server's info through a
   disconnect and a reconnect whose handshake payload cannot be parsed, and
   `send_command` still gates on the old server's schema version.
   */
  lemma ReconnectKeepsServerInfo(apiSchema: int, info: ServerInfo, id: string, command: string, requireSchema: int)
    requires info.minSupportedSchemaVersion <= apiSchema
    requires requireSchema > info.schemaVersion
    ensures var first := Client.Connect(Init(), apiSchema, Received(info)).next;
      var again := Client.Connect(Disconnect(first), apiSchema, Unparseable);
      && again.outcome == Raised(ParseFailed)
      && again.next.connected && again.next.serverInfo == Some(info)
      && SendCommand(again.next, id, command, Some(requireSchema), [], false) == Transition(again.next, Raised(InvalidServerVersion))
  {
  }

  /**
   `disconnect` cancels the futures before it awaits the transport. A command
   that passes its guards during that await registers a future nobody
   cancels: it stays Pending after the transport has closed.
   */
  lemma SendDuringDisconnectIsNeverCancelled(
    s: ClientState, id: string, command: string, errorMap: int -> ErrorKind, variant: Variant)
    requires s.connected && s.loopSet && id !in s.pending
    ensures var after := Run(s, [Stop, Send(id, command, None, [], false), Close], errorMap, variant);
      && after.stopCalled && !after.connected
      && id in after.pending && after.pending[id] == Pending
      && (forall k :: k in after.pending && k != id ==> after.pending[k] != Pending)
  {
    var trace := [Stop, Send(id, command, None, [], false), Close];
    assert trace[1..][1..][1..] == [];
    var s1 := StopAndCancel(s);
    assert Step(s, trace[0], errorMap, variant).next == s1;
    var s2 := SendCommand(s1, id, command, None, [], false).next;
    assert Step(s1, trace[1], errorMap, variant).next == s2;
    assert Step(s2, trace[1..][1..][0], errorMap, variant).next == CloseTransport(s2);
    assert Run(s2, trace[1..][1..], errorMap, variant) == CloseTransport(s2);
    assert Run(s1, trace[1..], errorMap, variant) == CloseTransport(s2);
  }
}
